=== FILE: README.md ===
# Field-map linkage of BIDS sessions, modelled in Dafny

This project models the decision logic of two curation scripts for a BIDS
neuroimaging dataset. They maintain the `IntendedFor` linkage field of
field-map sidecars. That field is the list of functional images a field-map
pair is meant to correct.

- `bids/hcp_func_intendedfor.py` sorts each (subject, session) through a
  cascade of checks. A session is either left unresolved for a reason
  (`No fmap data`, `No fmri data`, `Extra fmap pairs`,
  `Extra func or too few fmaps`) or linked. When it is linked, resting-state
  run k goes with field-map run k (k = 1, 2) and all task images go with
  field-map run 3. There is one special case: when no resting-state run
  numbers exist, field-map run 1 is linked to the unnumbered resting-state
  images and nothing else is attempted. That case is reached only when task
  images exist. The `No fmri data` check (line 80) looks at rest run numbers,
  not rest images, so a session whose only functional data is unnumbered
  resting-state images is reported `No fmri data` and never linked. Each link
  is made by `intendFmaps`.
  It refuses unless there is something to link and exactly two sidecars.
  Otherwise it overwrites `IntendedFor` in both sidecars. Every image
  considered gets one report row.
- `bids/remove_intendedfor.py` collects the `.json` files under a session's
  field-map directory and deletes `IntendedFor` from each one. Every collected
  file is rewritten.

Modules:

- `Common`: `Option`, `Path`, and the `Result`/`Failure` pair. A `Failure`
  stands for the uncaught exceptions that halt a run: an unreadable sidecar,
  or a `KeyError` on `run`.
- `Seqs`: order-preserving `Filter`.
- `Strings`: `EndsWith`, `StartsWith`, `Contains`, and `RemoveAll`, which is
  Python's `str.replace(pat, '')`.
- `Linkage`: a JSON value type, a sidecar as `map<string, Json>`, and a store
  of sidecar files (`map<Path, Sidecar>`). A path missing from the store is a
  file that cannot be opened or parsed. The module also holds the two edits,
  `SetLinkage` and `RemoveLinkage`.
- `Assign`: `intendFmaps`.
- `Triage`: the session inventory that the dataset index would return, and
  the cascade.
- `Session`: running the chosen pairings one after another against the
  store, and the report rows. `ProcessSession` uses the corrected
  `Extra fmap pairs` report (see Findings), and `ProcessSessionAsWritten`
  follows the script as written at line 90.
- `Removal`: the removal script. A removal that halts on an unreadable file
  returns the files as it left them: those rewritten before the failure stay
  rewritten.

The dataset index (pybids `BIDSLayout`) is a foreign library, so it is not
called. Its answers for one session are an `Inventory` value:

- rest run ids (line 72)
- fmap run ids (line 73)
- task BOLD records (line 75)
- all BOLD records (line 87)
- rest BOLD records (lines 97, 118)
- fmap JSON sidecars with their run (lines 112, 115, 129, 143)

The per-run queries at lines 129, 133 and 143 are filters of those lists by
run.

Two facts about the report:

- A row written after a linking attempt carries the text `None` in its error
  column (lines 124, 139, 153), whether or not the attempt linked anything.
- The script has exactly the four unresolved reasons above.

## Model

| member | source | states |
|---|---|---|
| `Linkage.SetLinkage` | bids/hcp_func_intendedfor.py:24 | after assignment the linkage field is exactly the supplied list, whatever it held, and every other key keeps its value |
| `Linkage.SetLinkageUnique` | bids/hcp_func_intendedfor.py:24 | any document with the supplied list as linkage that agrees elsewhere is the assignment's result, so the contract fully determines the rewrite |
| `Linkage.SetLinkageLastWins` | bids/hcp_func_intendedfor.py:24 | a second assignment overwrites the first completely |
| `Assign.IntendFmaps` | bids/hcp_func_intendedfor.py:11-29 | refuses without touching a file when the path list is empty or there are not exactly two sidecars; succeeds exactly when both hold and both files can be read; then both sidecars have `IntendedFor` equal to the list, each is written once, and no other file changes; otherwise it fails on the first unreadable sidecar |
| `Assign.Relink` | bids/hcp_func_intendedfor.py:21-27 | one read-modify-write raises exactly when the file cannot be read, naming it; otherwise that file holds the list under `IntendedFor`, keeps its other keys, and no other file changes |
| `Strings.RemoveAll` | bids/hcp_func_intendedfor.py:135 | `replace(pat, '')` never lengthens a string and leaves it unchanged when the pattern does not occur or is empty; `Strings.RemoveAllInterior` pins down where occurrences are deleted |
| `Strings.RemoveLeading` | bids/hcp_func_intendedfor.py:135 | a leading occurrence is deleted and the scan continues after it |
| `Strings.RemoveAllSkips` | bids/hcp_func_intendedfor.py:135 | where the pattern does not start the string, the first character is kept and the scan continues with the rest |
| `Strings.RemoveAllInterior` | bids/hcp_func_intendedfor.py:135 | an occurrence anywhere in the string is deleted: the text before the first occurrence is kept and the scan resumes after it, so `replace` removes interior occurrences as well as leading ones |
| `Session.RelativeToSubject` | bids/hcp_func_intendedfor.py:135 | a path that does not contain `sub-<subj>/` is kept unchanged |
| `Session.SubjectDirStripped` | bids/hcp_func_intendedfor.py:120 | a dataset-relative path `sub-<subj>/rest` becomes `rest` when `rest` does not mention the subject directory again |
| `Session.IntendedPaths` | bids/hcp_func_intendedfor.py:120-145 | one entry per image, in order, never longer than the image's path; an image under `sub-<subj>/` is named relative to that directory |
| `Session.PairingRows` | bids/hcp_func_intendedfor.py:122-153 | one row per image of the pairing, in order, each with `fmap` equal to the attempt's result and error `None`; the run column is `NA` unless the pairing shows run numbers |
| `Triage.SidecarsOfRun` | bids/hcp_func_intendedfor.py:129-130 | the sidecar paths selected for run k are exactly those the index lists with run k |
| `Triage.SidecarRunUnique` | bids/hcp_func_intendedfor.py:129-130 | with distinct sidecar paths, a sidecar belongs to one field-map run only |
| `Triage.RestBoldOfRun` | bids/hcp_func_intendedfor.py:133 | the rest images selected for run k are exactly those with run k |
| `Triage.ReasonText` | bids/hcp_func_intendedfor.py:77-106 | the error text of a skipped session is never the `None` that rows of an attempted link carry |
| `Triage.Classify` | bids/hcp_func_intendedfor.py:77-146 | zero fmap runs gives `No fmap data` whatever else exists; linking is attempted only with 1 to 3 fmap runs, at most 2 rest runs, no more rest runs than fmap runs, and some functional data; with no rest run numbers the single pairing uses fmap run 1 (the branch at line 115 is never taken); otherwise rest run k is paired only with fmap run k for k = 1, 2, and all task images with fmap run 3 |
| `Triage.FirstMatch` | bids/hcp_func_intendedfor.py:77-106 | the result is the reason of the first check that matches, and none exactly when no check matches |
| `Triage.ClassifyIsFirstMatch` | bids/hcp_func_intendedfor.py:77-106 | the nested cascade equals first-match evaluation of the four checks, each stated on its own, in the script's order |
| `Triage.CascadePrecedence` | bids/hcp_func_intendedfor.py:77-106 | the exact circumstances of each reason: `No fmri data` only with fmap runs but no rest runs and no task images; `Extra fmap pairs` exactly with more than 3 fmap runs and some functional data; `Extra func or too few fmaps` exactly after those checks pass and there are more than 2 rest runs or fewer fmap runs than rest runs |
| `Session.WrittenPaths` | bids/hcp_func_intendedfor.py:128-146 | a sidecar is rewritten exactly when it belongs to a pairing that has images and exactly two sidecars |
| `Session.ApplyPairings` | bids/hcp_func_intendedfor.py:128-153 | running the pairings in order raises exactly when a sidecar that must be rewritten cannot be read; otherwise the files written are the sidecars of the linkable pairings in order, and the set of files is unchanged |
| `Session.ApplyPairingsFailure` | bids/hcp_func_intendedfor.py:128-146 | a failure names a sidecar that had to be rewritten and is not readable |
| `Session.ApplyPairingsFrame` | bids/hcp_func_intendedfor.py:128-146 | a sidecar outside every linkable pairing keeps its content |
| `Session.ApplyPairingsRows` | bids/hcp_func_intendedfor.py:137-153 | rows come pairing by pairing, one per image, with `fmap` equal to whether the pairing was linkable and error `None` |
| `Session.PairingLinkage` | bids/hcp_func_intendedfor.py:128-146 | a sidecar in exactly one linkable pairing ends up linked to that pairing's images, whatever the other pairings did |
| `Session.PairingRowReported` | bids/hcp_func_intendedfor.py:137-153 | every row of every pairing appears in the session report |
| `Session.PairingImageReported` | bids/hcp_func_intendedfor.py:137-153 | every image of a pairing gets a row flagged with whether its pairing was linkable |
| `Session.ReportedRowFiles` | bids/hcp_func_intendedfor.py:122-153 | every row of a linked session is about an image of one of its pairings and carries error `None` |
| `Session.UnresolvedRows` | bids/hcp_func_intendedfor.py:77-106 | every row of an unresolved session has `fmap` false and the reason as its error |
| `Session.ProcessSession` | bids/hcp_func_intendedfor.py:72-153 | an unresolved session writes nothing and reports its reason on every row; a linked session raises exactly when a needed sidecar is unreadable; only the session's field-map sidecars are ever rewritten and every other file keeps its content |
| `Session.WrittenIsSessionSidecar` | bids/hcp_func_intendedfor.py:108-153 | every sidecar a linked session rewrites is one of the session's numbered field-map sidecars |
| `Session.PairedSessionEffects` | bids/hcp_func_intendedfor.py:128-153 | a linked session that does not raise rewrites only field-map sidecars and leaves every other file as it was |
| `Session.ReadableSessionSucceeds` | bids/hcp_func_intendedfor.py:72-153 | a session whose field-map sidecars can all be read never raises, whichever branch of the cascade it takes |
| `Session.ProcessSessionAsWritten` | bids/hcp_func_intendedfor.py:72-153 | the script as written: in the `Extra fmap pairs` branch a functional image without a run raises, naming such an image; every other session behaves as `ProcessSession` |
| `Session.ReadableSessionAsWritten` | bids/hcp_func_intendedfor.py:72-153 | as written, a session whose field-map sidecars can all be read raises exactly when it reaches the `Extra fmap pairs` report with a run-less image |
| `Session.NoFmapDataReport` | bids/hcp_func_intendedfor.py:77-79 | no field maps: no writes and one `NA` row `False,No fmap data`, whatever functional data exists |
| `Session.UnnumberedRestAloneReport` | bids/hcp_func_intendedfor.py:80-82 | with field maps but no rest run numbers and no task images, the session writes nothing and reports one `NA` row `False,No fmri data`, even when unnumbered rest images exist |
| `Session.ExtraFmapPairsReport` | bids/hcp_func_intendedfor.py:85-92 | more than 3 fmap runs: no writes, and one row per functional image with `False,Extra fmap pairs` |
| `Session.ExtraFuncReport` | bids/hcp_func_intendedfor.py:95-106 | too many rest runs or too few fmap runs: no writes, and one row per rest image with `False,Extra func or too few fmaps` |
| `Session.UsualCaseSidecarLinked` | bids/hcp_func_intendedfor.py:128-146 | with distinct sidecar paths, a sidecar of a linkable run-k pairing is linked to exactly that pairing's images |
| `Session.RestRunLinked` | bids/hcp_func_intendedfor.py:128-136 | usual case: when every field-map sidecar is readable, the session does not raise, and when fmap run k (k = 1, 2) is a pair and rest run k has images, both sidecars get `IntendedFor` equal to the subject-relative paths of the rest images of run k |
| `Session.TaskLinked` | bids/hcp_func_intendedfor.py:141-146 | usual case: when every field-map sidecar is readable, the session does not raise, and when fmap run 3 is a pair and task images exist, both sidecars are linked to all task images |
| `Session.RestRunReported` | bids/hcp_func_intendedfor.py:137-139 | usual case: each rest image of run k is reported with its run, and `fmap` is true exactly when fmap run k has two sidecars |
| `Session.OtherRestRunsUnreported` | bids/hcp_func_intendedfor.py:128-139 | usual case: a rest image numbered neither 1 nor 2 gets no report row |
| `Session.UnnumberedRestReport` | bids/hcp_func_intendedfor.py:108-125 | special case with no rest run numbers: only fmap run 1 sidecars are ever written; only rest images are reported, with run `NA`; task images are never attempted |
| `Session.UnnumberedRestLinksRunOne` | bids/hcp_func_intendedfor.py:108-125 | in the same special case, with every field-map sidecar readable, the session does not raise and a run-1 pair of sidecars is linked to all rest images |
| `Session.ExtraFmapRowsAsWritten` | bids/hcp_func_intendedfor.py:88-91 | as written, the `Extra fmap pairs` report raises exactly when some functional image has no run, naming such an image |
| `Session.ExtraFmapRows` | bids/hcp_func_intendedfor.py:88-91 | corrected report: never raises; one row per functional image in order, run shown when present and `NA` otherwise, `fmap` false, error `Extra fmap pairs` |
| `Session.ExtraFmapRowsAgree` | bids/hcp_func_intendedfor.py:88-91 | when every image has a run, the as-written and corrected reports agree |
| `Session.RunlessTaskImageHaltsReport` | bids/hcp_func_intendedfor.py:90 | a session with four fmap runs and one task image without a run reaches this branch; the script raises where the corrected report shows `NA` |
| `Linkage.RemoveLinkage` | bids/remove_intendedfor.py:14-16 | afterwards the document has no `IntendedFor`, every other key keeps its value, and a document without the field is left exactly as it was |
| `Linkage.RemoveLinkageUnique` | bids/remove_intendedfor.py:14-16 | any document without the field that agrees elsewhere is the removal's result |
| `Linkage.RemoveLinkageIdempotent` | bids/remove_intendedfor.py:15-16 | removing twice equals removing once |
| `Linkage.RemoveAfterSet` | bids/remove_intendedfor.py:15-16 | removal after an assignment equals removal alone; the earlier linkage is not restored |
| `Linkage.RemoveUndoesFreshSet` | bids/remove_intendedfor.py:15-16 | on a document that had no linkage, removal exactly undoes an assignment |
| `Removal.Unlinked` | bids/remove_intendedfor.py:9-19 | after removal, every listed file has no `IntendedFor` and keeps its other keys; unlisted files and files without the field are unchanged; no file appears or disappears |
| `Removal.UnlinkedIdempotent` | bids/remove_intendedfor.py:15-16 | running the removal twice on the same files gives the same files as once |
| `Removal.RemovalUndoesFreshLinking` | bids/remove_intendedfor.py:9-19 | removal from a pair that `intendFmaps` just linked, and that had no linkage before, restores the files exactly |
| `Removal.RemoveIntendedFor` | bids/remove_intendedfor.py:9-19 | the files rewritten are always a prefix of the list, in list order, and the files afterwards are `Unlinked` over exactly that prefix, so files handled before a failure stay rewritten; the run halts exactly when a listed file cannot be read, at the first such file and naming it; otherwise every listed path is rewritten |
| `Removal.UnlinkStep` | bids/remove_intendedfor.py:10-19 | processing one more listed file extends the removal by that file, even when it was already listed |
| `Removal.JoinKeepsSuffix` | bids/remove_intendedfor.py:53 | joining a directory in front keeps the file name's ending |
| `Removal.JoinPath` | bids/remove_intendedfor.py:53 | `os.path.join`: the result ends with the name; an absolute name replaces the directory; otherwise the result starts with the directory, ends with `/` followed by the name when the directory is non-empty, and is exactly one separator longer than the two parts unless the directory is empty or already ends in `/` |
| `Removal.IsJsonFile` | bids/remove_intendedfor.py:52 | a walked file is kept exactly when its name is some stem followed by `.json` |
| `Removal.JsonSidecarPaths` | bids/remove_intendedfor.py:50-53 | every collected path ends in `.json`, comes from a walked file whose name ends in `.json`, and every such file is collected |
| `Removal.JsonSidecarPathsFacts` | bids/remove_intendedfor.py:50-53 | the three collection facts above, for the filtered and joined listing |
| `Removal.JsonSidecarPathsAppend` | bids/remove_intendedfor.py:50-53 | walk order is kept: collecting from two listings in a row is collecting from each and concatenating |
| `Removal.JoinAllAppend` | bids/remove_intendedfor.py:53 | joining paths distributes over concatenation of listings |
| `Removal.RemoveSessionLinkage` | bids/remove_intendedfor.py:46-56 | no `.json` file found gives no writes and unchanged files; otherwise it halts exactly when a collected file cannot be read; whether or not it halts, the files rewritten are the first collected ones in order, they lose their linkage, and every file outside the collected ones is unchanged |
| `Seqs.Filter` | bids/remove_intendedfor.py:52 | the kept elements are exactly the input elements that pass the test |
| `Seqs.FilterAppend` | bids/remove_intendedfor.py:50-53 | filtering keeps order: filtering a concatenation is concatenating the filtered parts |

## Left out

- The `BIDSLayout` queries (bids/hcp_func_intendedfor.py:43, 72-75, 87, 97, 112-143). This is a foreign library. Its answers are the `Inventory` input. The per-run queries are assumed to equal the all-run lists filtered by run number.
- File reading and writing, JSON parsing and the `indent=2, sort_keys=True` formatting. Sidecars are in-memory maps, and a store path that is absent stands for a file that cannot be opened or parsed. A file holding valid JSON that is not an object is not distinguished from an unreadable one.
- JSON numbers are integers in `Json`. No value other than `IntendedFor` is ever inspected, so fractions and duplicate keys are not modelled.
- The window between the two sidecar writes of `intendFmaps`. When the second read fails the model returns the failure and drops the half-updated store. This is about process death and I/O, not the decision logic.
- Session.ProcessSession: uses the corrected `Extra fmap pairs` report of line 90 (see Findings), so it never raises in that branch. The script as written is `Session.ProcessSessionAsWritten`, which raises there on a functional image without a run.
- Session.ReadableSessionSucceeds: holds of the corrected line-90 report only. For the script as written, `Session.ReadableSessionAsWritten` states exactly when such a session raises.
- Session.ExtraFmapPairsReport: describes the corrected line-90 report, one row per functional image with run or `NA`. As written, the script raises `KeyError` on the first image without a run; see `Session.ExtraFmapRowsAsWritten`.
- Rows already printed, and sidecars already rewritten by earlier pairings, before an uncaught exception in a session. A failing session returns only its `Failure`, although on disk the files that earlier `intendFmaps` calls of the session rewrote (lines 128-146) stay rewritten. The removal script does model this partial state (`Removal.RemoveIntendedFor`).
- `os.walk` (bids/remove_intendedfor.py:50-51). The walk's output is a `WalkEntry` list. Only the `.json` suffix filter and `os.path.join` are modelled.
- Command-line usage text, `sys.exit`, reading the CSV session list, enumerating subjects and sessions, the loops over sessions (bids/hcp_func_intendedfor.py:31-63, bids/remove_intendedfor.py:21-47), and rendering rows as CSV text. A report row is a `Row` value.
- Missing `direction`, `task` or `suffix` entities: a `BoldFile` always carries them. The script reads them without a guard on every row, so a functional file missing one of them would raise `KeyError`. HCP functional files always carry all three.
- classification/fix_dwi_classification.py in its entirety. It consists of Flywheel SDK network calls that re-run a classifier gear and has no decision logic of its own beyond a label test.

## Findings

| source | as written | input that shows it | evidently intended | confidence | as-written member | corrected member |
|---|---|---|---|---|---|---|
| bids/hcp_func_intendedfor.py:90 | the `Extra fmap pairs` report reads `ent['run']` without the `KeyError` guard used at lines 100-103 and 149-152 | a session with four field-map runs and a task BOLD image without a run entity, which is the usual shape of task data according to the comment at line 68 | report the image with run `NA`, as the other branches do, and go on to the next session | likely; not executed | `Session.ExtraFmapRowsAsWritten` and `Session.ProcessSessionAsWritten` (shown by `Session.RunlessTaskImageHaltsReport`) | `Session.ExtraFmapRows` (used by `Session.UnresolvedRows` and so by `Session.ProcessSession`; `Session.ExtraFmapRowsAgree` shows the two agree when every image has a run, and `Session.ProcessSessionAsWritten` shows the whole session differs only there) |

=== FILE: assign.dfy ===
/** `intendFmaps` of bids/hcp_func_intendedfor.py: the decision whether a
    field-map pair can be linked to a list of functional runs, and the
    rewrite of both sidecars when it can. */
module Assign {

  import opened Common
  import opened Linkage

  /** What one call did: the value it returned, the sidecar files
      afterwards, and the paths it rewrote, in order. */
  datatype Assignment = Assignment(linked: bool, store: Store, writes: seq<Path>)

  /** Read one sidecar, set its linkage field, write it back. */
  function Relink(store: Store, path: Path, intended: seq<string>): (r: Result<Store>)
    // Opening a file that cannot be read raises, naming it.
    ensures r.Err? <==> path !in store
    ensures r.Err? ==> r.failure == Unreadable(path)
    // Otherwise that file now holds the list under the linkage field and
    // keeps its other keys; no other file changes.
    ensures r.Ok? ==> r.value.Keys == store.Keys
    ensures r.Ok? ==> IntendedFor in r.value[path] && r.value[path][IntendedFor] == StringList(intended)
    ensures r.Ok? ==> SameExceptLinkage(store[path], r.value[path])
    ensures r.Ok? ==> forall q :: q in store && q != path ==> r.value[q] == store[q]
  {
    if path !in store then Err(Unreadable(path))
    else Ok(store[path := SetLinkage(store[path], intended)])
  }

  /** `after` is `before` with exactly the files in `paths` linked to `intended`. */
  ghost predicate RelinkedExactly(before: Store, after: Store, paths: seq<Path>, intended: seq<string>)
  {
    && after.Keys == before.Keys
    && forall p :: p in before ==>
         after[p] == if p in paths then SetLinkage(before[p], intended) else before[p]
  }

  /** `intendFmaps(fmap_sidecar_paths, image_intendedfor_paths)`. It refuses,
      touching nothing, when there is nothing to link or the candidates are not
      exactly a pair; otherwise it links both sidecars of the pair to the whole
      list, in order, and raises on the first sidecar it cannot read. */
  function IntendFmaps(store: Store, sidecarPaths: seq<Path>, intended: seq<string>): (r: Result<Assignment>)
    // Fail closed: no file is even opened.
    ensures |intended| == 0 || |sidecarPaths| != 2 ==> r == Ok(Assignment(false, store, []))
    // It raises exactly when one of the pair cannot be read, naming the first such file.
    ensures r.Err? <==> |intended| > 0 && |sidecarPaths| == 2 && (sidecarPaths[0] !in store || sidecarPaths[1] !in store)
    ensures r.Err? ==> (|sidecarPaths| == 2 &&
      r.failure == Unreadable(if sidecarPaths[0] !in store then sidecarPaths[0] else sidecarPaths[1]))
    // It reports success exactly when there is something to link and a pair to link it to.
    ensures r.Ok? ==> (r.value.linked <==> |intended| > 0 && |sidecarPaths| == 2)
    ensures r.Ok? ==> r.value.store.Keys == store.Keys
    ensures r.Ok? && !r.value.linked ==> r.value.store == store && r.value.writes == []
    // On success each file of the pair is written once, and only those files change.
    ensures r.Ok? && r.value.linked ==> r.value.writes == sidecarPaths
    ensures r.Ok? && r.value.linked ==> RelinkedExactly(store, r.value.store, sidecarPaths, intended)
    // Both sidecars of the pair end up with the same linkage: the supplied list.
    ensures r.Ok? && r.value.linked ==> forall i :: 0 <= i < 2 ==>
      var linked := r.value.store[sidecarPaths[i]];
      IntendedFor in linked && linked[IntendedFor] == StringList(intended)
  {
    if |intended| == 0 then Ok(Assignment(false, store, []))
    else if |sidecarPaths| != 2 then Ok(Assignment(false, store, []))
    else
      match Relink(store, sidecarPaths[0], intended)
      case Err(f) => Err(f)
      case Ok(first) =>
        match Relink(first, sidecarPaths[1], intended)
        case Err(f) => Err(f)
        case Ok(second) =>
          SetLinkageLastWins(store[sidecarPaths[0]], intended, intended);
          Ok(Assignment(true, second, sidecarPaths))
  }
}

=== FILE: common.dfy ===
/** Shared vocabulary of the two scripts: optional values, file paths, and the
    uncaught exceptions that halt a whole run. */
module Common {

  /** A value that may be absent, such as the `run` entity of a BIDS file. */
  datatype Option<+T> = None | Some(value: T)

  /** A file-system path, as a string. */
  type Path = string

  /** The exceptions the scripts never catch. Either one ends the process. */
  datatype Failure =
    /** `open` or `json.load` of a sidecar raised. */
    | Unreadable(path: Path)
    /** Indexing `entities['run']` raised `KeyError` for the file with this relative path. */
    | MissingRunEntity(relpath: string)

  /** The outcome of a step that may raise one of the failures above. */
  datatype Result<+T> = Ok(value: T) | Err(failure: Failure)
}

=== FILE: linkage.dfy ===
/** A field-map sidecar as an in-memory JSON object, and the two edits the
    scripts make to its `IntendedFor` linkage field. */
module Linkage {

  import opened Common

  /** A JSON value as `json.load` produces it. Numbers are kept as integers:
      no value other than the linkage field is ever inspected. */
  datatype Json =
    | Null
    | Bool(b: bool)
    | Num(n: int)
    | Str(s: string)
    | Arr(items: seq<Json>)
    | Obj(fields: map<string, Json>)

  /** A sidecar document: a JSON object, key to value. */
  type Sidecar = map<string, Json>

  /** The sidecar files of a dataset by path. A path that is absent stands for
      a file that cannot be opened or does not hold a JSON object. */
  type Store = map<Path, Sidecar>

  /** The key of the linkage field. */
  const IntendedFor: string := "IntendedFor"

  /** A Python list of strings, as it is stored in a JSON document. */
  function StringList(xs: seq<string>): (j: Json)
  {
    Arr(seq(|xs|, i requires 0 <= i < |xs| => Str(xs[i])))
  }

  /** The two documents agree on every key except the linkage field. */
  ghost predicate SameExceptLinkage(a: Sidecar, b: Sidecar)
  {
    forall k :: k != IntendedFor ==> (k in a <==> k in b) && (k in a ==> a[k] == b[k])
  }

  /** `fmap_json['IntendedFor'] = paths`: the linkage field holds exactly the
      given list, whatever it held before, and nothing else changes. */
  function SetLinkage(sc: Sidecar, paths: seq<string>): (r: Sidecar)
    ensures IntendedFor in r && r[IntendedFor] == StringList(paths)
    ensures SameExceptLinkage(sc, r)
  {
    sc[IntendedFor := StringList(paths)]
  }

  /** `if 'IntendedFor' in fmap_json: del fmap_json['IntendedFor']`: the
      linkage field is gone, every other key keeps its value, and a document
      without the field is left exactly as it was. */
  function RemoveLinkage(sc: Sidecar): (r: Sidecar)
    ensures IntendedFor !in r
    ensures SameExceptLinkage(sc, r)
    ensures IntendedFor !in sc ==> r == sc
  {
    if IntendedFor in sc then sc - {IntendedFor} else sc
  }

  /** The contract of `RemoveLinkage` determines its result: any document
      without the field that agrees with `sc` elsewhere is that result. */
  lemma RemoveLinkageUnique(sc: Sidecar, r: Sidecar)
    requires IntendedFor !in r && SameExceptLinkage(sc, r)
    ensures r == RemoveLinkage(sc)
  {
    var expected := RemoveLinkage(sc);
    assert r.Keys == expected.Keys;
  }

  /** Likewise the contract of `SetLinkage` determines its result. */
  lemma SetLinkageUnique(sc: Sidecar, paths: seq<string>, r: Sidecar)
    requires IntendedFor in r && r[IntendedFor] == StringList(paths)
    requires SameExceptLinkage(sc, r)
    ensures r == SetLinkage(sc, paths)
  {
    var expected := SetLinkage(sc, paths);
    assert r.Keys == expected.Keys;
  }

  /** Removing the linkage twice is removing it once. */
  lemma RemoveLinkageIdempotent(sc: Sidecar)
    ensures RemoveLinkage(RemoveLinkage(sc)) == RemoveLinkage(sc)
  {
  }

  /** A later assignment overwrites an earlier one completely. */
  lemma SetLinkageLastWins(sc: Sidecar, first: seq<string>, second: seq<string>)
    ensures SetLinkage(SetLinkage(sc, first), second) == SetLinkage(sc, second)
  {
  }

  /** Removal after assignment is removal: what was linked before is not restored,
      and nothing else the assignment could have touched survives. */
  lemma RemoveAfterSet(sc: Sidecar, paths: seq<string>)
    ensures RemoveLinkage(SetLinkage(sc, paths)) == RemoveLinkage(sc)
  {
    RemoveLinkageUnique(sc, RemoveLinkage(SetLinkage(sc, paths)));
  }

  /** On a document that had no linkage, removal undoes assignment exactly. */
  lemma RemoveUndoesFreshSet(sc: Sidecar, paths: seq<string>)
    requires IntendedFor !in sc
    ensures RemoveLinkage(SetLinkage(sc, paths)) == sc
  {
    RemoveAfterSet(sc, paths);
  }
}

=== FILE: removal.dfy ===
/** bids/remove_intendedfor.py: for one session, collect the JSON files under
    the field-map directory and delete the linkage field from each. */
module Removal {

  import opened Common
  import opened Seqs
  import opened Strings
  import opened Linkage
  import Assign

  /** One file reported by the directory walk: the directory it is in and its name. */
  datatype WalkEntry = WalkEntry(root: Path, name: string)

  /** `os.path.join(root, name)` on POSIX. */
  function JoinPath(root: Path, name: string): (r: Path)
    // The result always ends with the name ...
    ensures EndsWith(r, name)
    // ... an absolute name replaces the directory, and otherwise the directory is kept in front.
    ensures StartsWith(name, "/") ==> r == name
    ensures !StartsWith(name, "/") ==> StartsWith(r, root)
    // A relative name is its own last component: a separator sits in front of
    // it unless the directory is empty, and nothing else is added.
    ensures !StartsWith(name, "/") && root != "" ==> EndsWith(r, "/" + name)
    ensures !StartsWith(name, "/") ==>
      |r| == |root| + |name| + (if root == "" || EndsWith(root, "/") then 0 else 1)
  {
    assert EndsWith(name, name) by { assert name[|name| - |name|..] == name; }
    if StartsWith(name, "/") then name
    else if root == "" || EndsWith(root, "/") then
      EndsWithAfterPrefix(root, name, name);
      assert (root + name)[..|root|] == root;
      assert root != "" ==> root + name == root[..|root| - 1] + ("/" + name);
      assert EndsWith("/" + name, "/" + name) by { assert ("/" + name)[0..] == "/" + name; }
      if root != "" then
        EndsWithAfterPrefix(root[..|root| - 1], "/" + name, "/" + name);
        root + name
      else root + name
    else
      EndsWithAfterPrefix(root + "/", name, name);
      assert (root + "/" + name)[..|root|] == root;
      assert root + "/" + name == root + ("/" + name);
      assert EndsWith("/" + name, "/" + name) by { assert ("/" + name)[0..] == "/" + name; }
      EndsWithAfterPrefix(root, "/" + name, "/" + name);
      root + "/" + name
  }

  /** Joining a directory in front keeps a file name's ending. */
  lemma JoinKeepsSuffix(root: Path, name: string, suffix: string)
    requires EndsWith(name, suffix)
    ensures EndsWith(JoinPath(root, name), suffix)
  {
    if StartsWith(name, "/") {
    } else if root == "" || EndsWith(root, "/") {
      EndsWithAfterPrefix(root, name, suffix);
    } else {
      EndsWithAfterPrefix(root + "/", name, suffix);
      assert root + "/" + name == (root + "/") + name;
    }
  }

  /** `file.endswith(".json")`. */
  predicate IsJsonFile(e: WalkEntry): (b: bool)
    ensures b <==> exists stem: string :: e.name == stem + ".json"
  {
    var n := e.name;
    assert EndsWith(n, ".json") ==> n == n[..|n| - 5] + ".json";
    assert forall stem: string :: n == stem + ".json" ==> n[|n| - 5..] == ".json";
    EndsWith(n, ".json")
  }

  /** The full paths of walked entries, in order. */
  function JoinAll(found: seq<WalkEntry>): (r: seq<Path>)
    ensures |r| == |found| && forall i :: 0 <= i < |found| ==> r[i] == JoinPath(found[i].root, found[i].name)
  {
    seq(|found|, i requires 0 <= i < |found| => JoinPath(found[i].root, found[i].name))
  }

  /** The paths of the JSON files among the walked entries, in walk order. */
  function JsonSidecarPaths(entries: seq<WalkEntry>): (r: seq<Path>)
    // Only `.json` files are collected ...
    ensures forall p :: p in r ==> EndsWith(p, ".json")
    ensures forall p :: p in r ==> exists e :: e in entries && IsJsonFile(e) && p == JoinPath(e.root, e.name)
    // ... and every one of them is.
    ensures forall e :: e in entries && IsJsonFile(e) ==> JoinPath(e.root, e.name) in r
  {
    JsonSidecarPathsFacts(entries);
    JoinAll(Filter(entries, IsJsonFile))
  }

  /** The facts behind the contract of `JsonSidecarPaths`. */
  lemma JsonSidecarPathsFacts(entries: seq<WalkEntry>)
    ensures var r := JoinAll(Filter(entries, IsJsonFile));
      && (forall p :: p in r ==> EndsWith(p, ".json"))
      && (forall p :: p in r ==> exists e :: e in entries && IsJsonFile(e) && p == JoinPath(e.root, e.name))
      && (forall e :: e in entries && IsJsonFile(e) ==> JoinPath(e.root, e.name) in r)
  {
    var found := Filter(entries, IsJsonFile);
    var r := JoinAll(found);
    forall p | p in r
      ensures EndsWith(p, ".json")
      ensures exists e :: e in entries && IsJsonFile(e) && p == JoinPath(e.root, e.name)
    {
      var i :| 0 <= i < |found| && r[i] == p;
      assert found[i] in found;
      JoinKeepsSuffix(found[i].root, found[i].name, ".json");
    }
    forall e | e in entries && IsJsonFile(e)
      ensures JoinPath(e.root, e.name) in r
    {
      assert e in found;
      var i :| 0 <= i < |found| && found[i] == e;
      assert r[i] == JoinPath(e.root, e.name);
    }
  }

  /** The walk order is kept: collecting from two listings one after the other
      is collecting from each and concatenating. */
  lemma JsonSidecarPathsAppend(a: seq<WalkEntry>, b: seq<WalkEntry>)
    ensures JsonSidecarPaths(a + b) == JsonSidecarPaths(a) + JsonSidecarPaths(b)
  {
    FilterAppend(a, b, IsJsonFile);
    JoinAllAppend(Filter(a, IsJsonFile), Filter(b, IsJsonFile));
  }

  /** Joining distributes over concatenation. */
  lemma JoinAllAppend(x: seq<WalkEntry>, y: seq<WalkEntry>)
    ensures JoinAll(x + y) == JoinAll(x) + JoinAll(y)
  {
    var l := JoinAll(x + y);
    var r := JoinAll(x) + JoinAll(y);
    forall i | 0 <= i < |l|
      ensures l[i] == r[i]
    {
      var e := (x + y)[i];
      if i < |x| {
        assert e == x[i] && r[i] == JoinAll(x)[i];
      } else {
        assert e == y[i - |x|] && r[i] == JoinAll(y)[i - |x|];
      }
    }
  }

  /** The sidecar files as removal leaves them: every listed file that exists
      loses its linkage field and every other file is as it was. */
  function Unlinked(store: Store, paths: seq<Path>): (r: Store)
    ensures r.Keys == store.Keys
    ensures forall p :: p in paths && p in store ==>
      IntendedFor !in r[p] && SameExceptLinkage(store[p], r[p])
    ensures forall p :: p in store && (p !in paths || IntendedFor !in store[p]) ==> r[p] == store[p]
  {
    map p | p in store :: if p in paths then RemoveLinkage(store[p]) else store[p]
  }

  /** Removing the linkage from the same files twice is removing it once. */
  lemma UnlinkedIdempotent(store: Store, paths: seq<Path>)
    ensures Unlinked(Unlinked(store, paths), paths) == Unlinked(store, paths)
  {
    var once := Unlinked(store, paths);
    var twice := Unlinked(once, paths);
    forall p | p in store
      ensures twice[p] == once[p]
    {
      if p in paths {
        RemoveLinkageIdempotent(store[p]);
      }
    }
  }

  /** Removal undoes a linking by the other script on a pair of sidecars that
      had no linkage before. */
  lemma RemovalUndoesFreshLinking(store: Store, sidecarPaths: seq<Path>, intended: seq<string>)
    requires |intended| > 0 && |sidecarPaths| == 2
    requires forall p :: p in sidecarPaths ==> p in store && IntendedFor !in store[p]
    ensures Assign.IntendFmaps(store, sidecarPaths, intended).Ok?
    ensures Unlinked(Assign.IntendFmaps(store, sidecarPaths, intended).value.store, sidecarPaths) == store
  {
    var linked := Assign.IntendFmaps(store, sidecarPaths, intended).value.store;
    forall p | p in store
      ensures Unlinked(linked, sidecarPaths)[p] == store[p]
    {
      if p in sidecarPaths {
        RemoveUndoesFreshSet(store[p], intended);
      }
    }
  }

  /** What a removal did: the sidecar files as it left them, the paths it
      rewrote, in order, and the exception that halted it, if one did. Files
      rewritten before the halt stay rewritten. */
  datatype Rewrite = Rewrite(store: Store, writes: seq<Path>, halted: Option<Failure>)

  /** `remove_intendedfor(fmap_sidecar_paths)`: each listed file in turn is
      read, loses its linkage field if it has one, and is written back; the
      first file that cannot be read raises and halts the run. */
  method RemoveIntendedFor(store: Store, paths: seq<Path>) returns (r: Rewrite)
    // The files rewritten are a prefix of the list, and each lost its linkage.
    ensures |r.writes| <= |paths| && r.writes == paths[..|r.writes|]
    ensures r.store == Unlinked(store, r.writes)
    // It halts exactly when a listed file cannot be read, at the first such file.
    ensures r.halted.None? <==> forall i :: 0 <= i < |paths| ==> paths[i] in store
    ensures r.halted.None? ==> r.writes == paths
    ensures r.halted.Some? ==>
      FirstUnreadable(store, paths, |r.writes|) && r.halted.value == Unreadable(paths[|r.writes|])
  {
    var current := store;
    var writes: seq<Path> := [];
    var n := 0;
    while n < |paths|
      invariant 0 <= n <= |paths|
      invariant forall j :: 0 <= j < n ==> paths[j] in store
      invariant writes == paths[..n]
      invariant current == Unlinked(store, paths[..n])
    {
      var p := paths[n];
      if p !in current {
        assert FirstUnreadable(store, paths, n);
        return Rewrite(current, writes, Some(Unreadable(p)));
      }
      UnlinkStep(store, paths, n);
      current := current[p := RemoveLinkage(current[p])];
      writes := writes + [p];
      n := n + 1;
    }
    assert paths[..n] == paths;
    return Rewrite(current, writes, None);
  }

  /** `paths[i]` is the first listed file that cannot be read. */
  predicate FirstUnreadable(store: Store, paths: seq<Path>, i: int)
  {
    0 <= i < |paths| && paths[i] !in store && forall j :: 0 <= j < i ==> paths[j] in store
  }

  /** Unlinking one more listed file extends the removal by that file. */
  lemma UnlinkStep(store: Store, paths: seq<Path>, n: nat)
    requires n < |paths| && paths[n] in store
    ensures var before := Unlinked(store, paths[..n]);
      Unlinked(store, paths[..n + 1]) == before[paths[n] := RemoveLinkage(before[paths[n]])]
  {
    var p := paths[n];
    var before := Unlinked(store, paths[..n]);
    assert paths[..n + 1] == paths[..n] + [p];
    if p in paths[..n] {
      RemoveLinkageIdempotent(store[p]);
    }
  }

  /** One session of the script: collect the JSON files the walk of the
      session's field-map directory found and, only if there is at least one,
      remove the linkage from them. */
  method RemoveSessionLinkage(store: Store, entries: seq<WalkEntry>) returns (r: Rewrite)
    ensures JsonSidecarPaths(entries) == [] ==> r == Rewrite(store, [], None)
    ensures r.halted.None? <==> forall p :: p in JsonSidecarPaths(entries) ==> p in store
    ensures r.halted.None? ==> r.writes == JsonSidecarPaths(entries)
    // Whether or not it halts, the files rewritten are the first collected ones.
    ensures |r.writes| <= |JsonSidecarPaths(entries)| && r.writes == JsonSidecarPaths(entries)[..|r.writes|]
    ensures r.store == Unlinked(store, r.writes)
    // Nothing outside the collected JSON files changes.
    ensures forall p :: p in store && p !in JsonSidecarPaths(entries) ==> r.store[p] == store[p]
  {
    var paths := JsonSidecarPaths(entries);
    if |paths| > 0 {
      r := RemoveIntendedFor(store, paths);
      forall p | p in store && p !in paths
        ensures r.store[p] == store[p]
      {
        assert p !in r.writes;
      }
    } else {
      assert Unlinked(store, paths) == store;
      r := Rewrite(store, [], None);
    }
  }
}

=== FILE: seqs.dfy ===
/** Order-preserving selection from a sequence, the shape of every list
    comprehension with an `if` in the scripts. */
module Seqs {

  /** The elements of `s` that satisfy `keep`, in their original order. */
  function Filter<T(!new)>(s: seq<T>, keep: T -> bool): (r: seq<T>)
    ensures |r| <= |s|
    ensures forall x :: x in r <==> x in s && keep(x)
    decreases |s|
  {
    if |s| == 0 then []
    else (if keep(s[0]) then [s[0]] else []) + Filter(s[1..], keep)
  }

  /** Filtering a concatenation filters each part, keeping the parts in order. */
  lemma {:induction false} FilterAppend<T(!new)>(a: seq<T>, b: seq<T>, keep: T -> bool)
    ensures Filter(a + b, keep) == Filter(a, keep) + Filter(b, keep)
    decreases |a|
  {
    if |a| == 0 {
      assert a + b == b;
    } else {
      assert (a + b)[0] == a[0];
      assert (a + b)[1..] == a[1..] + b;
      FilterAppend(a[1..], b, keep);
    }
  }
}

=== FILE: session.dfy ===
/** One session of bids/hcp_func_intendedfor.py end to end: triage, the calls
    of `intendFmaps` for the chosen pairings, and the report rows. */
module Session {

  import opened Common
  import opened Strings
  import opened Linkage
  import opened Assign
  import opened Triage

  /** One line of the report. `SessionRow` is the line whose entity columns
      are all `NA`; a `FileRow` describes one functional image, with `run`
      `None` printed as `NA`. */
  datatype Row =
    | SessionRow(subject: string, session: string, fmap: bool, error: string)
    | FileRow(file: BoldFile, run: Option<nat>, fmap: bool, error: string)

  /** The error column of a row written after a linking attempt: the script
      prints Python's `None`, whether or not the attempt linked anything. */
  const AttemptNote: string := "None"

  /** The subject directory prefix, `sub-<subject>/`. */
  function SubjectDir(subject: string): string
  {
    "sub-" + subject + "/"
  }

  /** `relpath.replace(f'sub-{subj}/', '')`: the path made relative to the
      subject directory. A path that never mentions that directory is kept. */
  function RelativeToSubject(subject: string, relpath: string): (r: string)
    ensures |r| <= |relpath|
    ensures !Contains(relpath, SubjectDir(subject)) ==> r == relpath
  {
    RemoveAll(relpath, SubjectDir(subject))
  }

  /** A dataset-relative path under the subject directory loses exactly that leading directory. */
  lemma SubjectDirStripped(subject: string, rest: string)
    requires !Contains(rest, SubjectDir(subject))
    ensures RelativeToSubject(subject, SubjectDir(subject) + rest) == rest
  {
    RemoveLeading(SubjectDir(subject), rest);
  }

  /** The `IntendedFor` list for a set of images. */
  function IntendedPaths(subject: string, bold: seq<BoldFile>): (r: seq<string>)
    // One entry per image, in order, never longer than the image's path ...
    ensures |r| == |bold|
    ensures forall i :: 0 <= i < |bold| ==> |r[i]| <= |bold[i].relpath|
    // ... and an image under `sub-<subject>/` is named relative to that directory.
    ensures forall i :: 0 <= i < |bold| && StartsWith(bold[i].relpath, SubjectDir(subject))
                        && !Contains(bold[i].relpath[|SubjectDir(subject)|..], SubjectDir(subject))
                        ==> r[i] == bold[i].relpath[|SubjectDir(subject)|..]
  {
    var r := seq(|bold|, i requires 0 <= i < |bold| => RelativeToSubject(subject, bold[i].relpath));
    assert forall i :: 0 <= i < |bold| && StartsWith(bold[i].relpath, SubjectDir(subject))
                       && !Contains(bold[i].relpath[|SubjectDir(subject)|..], SubjectDir(subject))
                       ==> r[i] == bold[i].relpath[|SubjectDir(subject)|..] by {
      forall i | 0 <= i < |bold| && StartsWith(bold[i].relpath, SubjectDir(subject))
                 && !Contains(bold[i].relpath[|SubjectDir(subject)|..], SubjectDir(subject))
        ensures r[i] == bold[i].relpath[|SubjectDir(subject)|..]
      {
        var rest := bold[i].relpath[|SubjectDir(subject)|..];
        assert bold[i].relpath == SubjectDir(subject) + rest;
        SubjectDirStripped(subject, rest);
      }
    }
    r
  }

  /** Whether `intendFmaps` links this pairing: there is data to link and a
      pair of sidecars to link it to. */
  predicate Linkable(p: Pairing)
  {
    |p.bold| > 0 && |p.sidecars| == 2
  }

  /** The rows reported for a pairing after the attempt to link it. */
  function PairingRows(p: Pairing, linked: bool): (rows: seq<Row>)
    // One row per image of the pairing, in order, each flagged with the
    // outcome and carrying the attempt's note ...
    ensures |rows| == |p.bold|
    ensures forall i :: 0 <= i < |rows| ==>
      rows[i].FileRow? && rows[i].file == p.bold[i] && rows[i].fmap == linked && rows[i].error == AttemptNote
    // ... and the run column is `NA` unless the pairing shows run numbers.
    ensures forall i :: 0 <= i < |rows| ==> rows[i].run == (if p.showsRun then p.bold[i].run else None)
  {
    seq(|p.bold|, i requires 0 <= i < |p.bold| =>
      FileRow(p.bold[i], if p.showsRun then p.bold[i].run else None, linked, AttemptNote))
  }

  /** The sidecars a list of pairings rewrites, in order: those of each linkable pairing. */
  function WrittenPaths(ps: seq<Pairing>): (r: seq<Path>)
    ensures forall p :: p in r ==> exists j :: 0 <= j < |ps| && Linkable(ps[j]) && p in ps[j].sidecars
    ensures forall j, p :: 0 <= j < |ps| && Linkable(ps[j]) && p in ps[j].sidecars ==> p in r
    decreases |ps|
  {
    if |ps| == 0 then []
    else
      var rest := WrittenPaths(ps[1..]);
      assert forall j :: 1 <= j < |ps| ==> ps[j] == ps[1..][j - 1];
      assert forall p :: p in rest ==> exists j :: 0 <= j < |ps| && Linkable(ps[j]) && p in ps[j].sidecars by {
        forall p | p in rest
          ensures exists j :: 0 <= j < |ps| && Linkable(ps[j]) && p in ps[j].sidecars
        {
          var j :| 0 <= j < |ps[1..]| && Linkable(ps[1..][j]) && p in ps[1..][j].sidecars;
          assert ps[j + 1] == ps[1..][j];
        }
      }
      (if Linkable(ps[0]) then ps[0].sidecars else []) + rest
  }

  /** The rows a list of pairings reports, each flagged with whether its pairing was linkable. */
  function ReportedRows(ps: seq<Pairing>): seq<Row>
    decreases |ps|
  {
    if |ps| == 0 then [] else PairingRows(ps[0], Linkable(ps[0])) + ReportedRows(ps[1..])
  }

  /** The effect of processing a session: the sidecar files afterwards, the
      paths rewritten in order, and the report rows in order. */
  datatype SessionResult = SessionResult(store: Store, writes: seq<Path>, rows: seq<Row>)

  /** The pairings linked one after another, each `intendFmaps` call seeing the
      files as the previous ones left them. */
  function ApplyPairings(store: Store, subject: string, ps: seq<Pairing>): (r: Result<SessionResult>)
    // The run raises exactly when a sidecar it has to rewrite cannot be read.
    ensures r.Ok? <==> forall p :: p in WrittenPaths(ps) ==> p in store
    ensures r.Ok? ==> r.value.store.Keys == store.Keys
    ensures r.Ok? ==> r.value.writes == WrittenPaths(ps)
    decreases |ps|
  {
    if |ps| == 0 then Ok(SessionResult(store, [], []))
    else
      var head := ps[0];
      var intended := IntendedPaths(subject, head.bold);
      var own := if Linkable(head) then head.sidecars else [];
      assert |intended| == |head.bold|;
      assert WrittenPaths(ps) == own + WrittenPaths(ps[1..]);
      match IntendFmaps(store, head.sidecars, intended)
      case Err(f) =>
        assert own == head.sidecars && (own[0] !in store || own[1] !in store);
        Err(f)
      case Ok(a) =>
        assert a.linked == Linkable(head) && a.writes == own;
        assert forall p :: p in own ==> p in store;
        assert a.store.Keys == store.Keys;
        match ApplyPairings(a.store, subject, ps[1..])
        case Err(f) => Err(f)
        case Ok(rest) =>
          Ok(SessionResult(rest.store, a.writes + rest.writes, PairingRows(head, a.linked) + rest.rows))
  }

  /** The failure names a sidecar that had to be rewritten and could not be read. */
  lemma {:induction false} ApplyPairingsFailure(store: Store, subject: string, ps: seq<Pairing>)
    requires ApplyPairings(store, subject, ps).Err?
    ensures var f := ApplyPairings(store, subject, ps).failure;
      f.Unreadable? && f.path in WrittenPaths(ps) && f.path !in store
    decreases |ps|
  {
    var head := ps[0];
    var own := if Linkable(head) then head.sidecars else [];
    assert WrittenPaths(ps) == own + WrittenPaths(ps[1..]);
    var first := IntendFmaps(store, head.sidecars, IntendedPaths(subject, head.bold));
    if first.Ok? {
      ApplyPairingsFailure(first.value.store, subject, ps[1..]);
    }
  }

  /** A sidecar outside every linkable pairing is not changed. */
  lemma {:induction false} ApplyPairingsFrame(store: Store, subject: string, ps: seq<Pairing>, p: Path)
    requires ApplyPairings(store, subject, ps).Ok?
    requires p in store && p !in WrittenPaths(ps)
    ensures ApplyPairings(store, subject, ps).value.store[p] == store[p]
    decreases |ps|
  {
    if |ps| > 0 {
      var head := ps[0];
      var own := if Linkable(head) then head.sidecars else [];
      assert WrittenPaths(ps) == own + WrittenPaths(ps[1..]);
      var first := IntendFmaps(store, head.sidecars, IntendedPaths(subject, head.bold));
      ApplyPairingsFrame(first.value.store, subject, ps[1..], p);
    }
  }

  /** Each reported row's `fmap` flag says whether its pairing was linkable,
      and the rows come pairing by pairing, in order. */
  lemma {:induction false} ApplyPairingsRows(store: Store, subject: string, ps: seq<Pairing>)
    requires ApplyPairings(store, subject, ps).Ok?
    ensures ApplyPairings(store, subject, ps).value.rows == ReportedRows(ps)
    decreases |ps|
  {
    if |ps| > 0 {
      var head := ps[0];
      var a := IntendFmaps(store, head.sidecars, IntendedPaths(subject, head.bold)).value;
      ApplyPairingsRows(a.store, subject, ps[1..]);
    }
  }

  /** A sidecar that belongs to exactly one linkable pairing ends up linked to
      that pairing's images, whatever the other pairings did. */
  lemma {:induction false} PairingLinkage(store: Store, subject: string, ps: seq<Pairing>, j: nat, p: Path)
    requires j < |ps| && Linkable(ps[j]) && p in ps[j].sidecars
    requires forall i :: 0 <= i < |ps| && i != j ==> p !in ps[i].sidecars
    requires ApplyPairings(store, subject, ps).Ok?
    ensures p in store
    ensures ApplyPairings(store, subject, ps).value.store[p] == SetLinkage(store[p], IntendedPaths(subject, ps[j].bold))
    decreases |ps|
  {
    var head := ps[0];
    var a := IntendFmaps(store, head.sidecars, IntendedPaths(subject, head.bold)).value;
    var tail := ps[1..];
    assert forall i :: 0 <= i < |tail| ==> tail[i] == ps[i + 1];
    if j == 0 {
      assert p !in WrittenPaths(tail);
      ApplyPairingsFrame(a.store, subject, tail, p);
    } else {
      assert p !in head.sidecars;
      PairingLinkage(a.store, subject, tail, j - 1, p);
    }
  }

  /** The rows for an `Extra fmap pairs` session as the script writes them:
      `ent['run']` is read without a guard, so an image without a run number
      raises `KeyError` and halts the run. */
  function ExtraFmapRowsAsWritten(files: seq<BoldFile>): (r: Result<seq<Row>>)
    ensures r.Err? <==> exists i :: 0 <= i < |files| && files[i].run.None?
    ensures r.Err? ==> exists i :: (0 <= i < |files| && files[i].run.None?
                                    && r.failure == MissingRunEntity(files[i].relpath))
    decreases |files|
  {
    if |files| == 0 then Ok([])
    else if files[0].run.None? then Err(MissingRunEntity(files[0].relpath))
    else
      var rest := ExtraFmapRowsAsWritten(files[1..]);
      assert forall i :: 1 <= i < |files| ==> files[i] == files[1..][i - 1];
      assert rest.Err? ==> exists i :: (0 <= i < |files| && files[i].run.None?
                                        && rest.failure == MissingRunEntity(files[i].relpath)) by {
        if rest.Err? {
          var i :| 0 <= i < |files[1..]| && files[1..][i].run.None?
            && rest.failure == MissingRunEntity(files[1..][i].relpath);
          assert files[i + 1] == files[1..][i];
        }
      }
      match rest
      case Err(f) => Err(f)
      case Ok(rows) => Ok([FileRow(files[0], files[0].run, false, ReasonText(ExtraFmapPairs))] + rows)
  }

  /** The rows for an `Extra fmap pairs` session as evidently intended: one
      per functional image, an absent run number shown as `NA` as the other
      branches of the script do. */
  function ExtraFmapRows(files: seq<BoldFile>): (rows: seq<Row>)
    ensures |rows| == |files|
    ensures forall i :: 0 <= i < |files| ==>
      && rows[i].FileRow? && rows[i].file == files[i] && rows[i].run == files[i].run
      && !rows[i].fmap && rows[i].error == "Extra fmap pairs"
  {
    seq(|files|, i requires 0 <= i < |files| =>
      FileRow(files[i], files[i].run, false, ReasonText(ExtraFmapPairs)))
  }

  /** Where every image carries a run number the two versions agree. */
  lemma {:induction false} ExtraFmapRowsAgree(files: seq<BoldFile>)
    requires forall i :: 0 <= i < |files| ==> files[i].run.Some?
    ensures ExtraFmapRowsAsWritten(files) == Ok(ExtraFmapRows(files))
    decreases |files|
  {
    if |files| > 0 {
      ExtraFmapRowsAgree(files[1..]);
      assert ExtraFmapRows(files) == [ExtraFmapRows(files)[0]] + ExtraFmapRows(files[1..]);
    }
  }

  /** A session with four field-map runs and one task image without a run
      number (the usual shape of task data) reaches the `Extra fmap pairs`
      branch, where the script raises instead of reporting the image. */
  lemma RunlessTaskImageHaltsReport()
    ensures
      var task := BoldFile("01", "A", "WM", None, "LR", "bold", "sub-01/ses-A/func/sub-01_ses-A_task-WM_dir-LR_bold.nii.gz");
      var inv := Inventory("01", "A", {}, {1, 2, 3, 4}, [task], [task], [], []);
      && Classify(inv) == Unresolved(ExtraFmapPairs)
      && ExtraFmapRowsAsWritten(inv.allBold) == Err(MissingRunEntity(task.relpath))
      && ExtraFmapRows(inv.allBold) == [FileRow(task, None, false, "Extra fmap pairs")]
  {
    var runs: set<nat> := {1, 2, 3, 4};
    assert |runs| == 4;
  }

  /** The rows for an unresolved session. */
  function UnresolvedRows(inv: Inventory, reason: Reason): (rows: seq<Row>)
    ensures forall i :: 0 <= i < |rows| ==> !rows[i].fmap && rows[i].error == ReasonText(reason)
  {
    match reason
    case NoFmapData => [SessionRow(inv.subject, inv.session, false, ReasonText(reason))]
    case NoFmriData => [SessionRow(inv.subject, inv.session, false, ReasonText(reason))]
    case ExtraFmapPairs => ExtraFmapRows(inv.allBold)
    case ExtraFuncOrTooFewFmaps =>
      seq(|inv.restBold|, i requires 0 <= i < |inv.restBold| =>
        FileRow(inv.restBold[i], inv.restBold[i].run, false, ReasonText(reason)))
  }

  /** A sidecar rewritten by a linked session is one of its field-map sidecars. */
  lemma WrittenIsSessionSidecar(inv: Inventory, p: Path)
    requires Classify(inv).Paired? && p in WrittenPaths(Classify(inv).pairings)
    ensures exists k :: FmapSidecar(p, Some(k)) in inv.fmapJson
  {
    var ps := Classify(inv).pairings;
    var j :| 0 <= j < |ps| && Linkable(ps[j]) && p in ps[j].sidecars;
    if |inv.restRuns| == 0 {
      assert FmapSidecar(p, Some(1)) in inv.fmapJson;
    } else {
      assert FmapSidecar(p, Some(j + 1)) in inv.fmapJson;
    }
  }

  /** A linked session rewrites only its field-map sidecars and leaves every other file as it was. */
  lemma PairedSessionEffects(inv: Inventory, store: Store)
    requires Classify(inv).Paired?
    ensures var r := ApplyPairings(store, inv.subject, Classify(inv).pairings);
      r.Ok? ==>
        && (forall p :: p in r.value.writes ==> exists k :: FmapSidecar(p, Some(k)) in inv.fmapJson)
        && (forall p :: p in store && p !in r.value.writes ==> r.value.store[p] == store[p])
  {
    var ps := Classify(inv).pairings;
    var r := ApplyPairings(store, inv.subject, ps);
    if r.Ok? {
      forall p | p in r.value.writes
        ensures exists k :: FmapSidecar(p, Some(k)) in inv.fmapJson
      {
        WrittenIsSessionSidecar(inv, p);
      }
      forall p | p in store && p !in r.value.writes
        ensures r.value.store[p] == store[p]
      {
        ApplyPairingsFrame(store, inv.subject, ps, p);
      }
    }
  }

  /** The loop body of the script for one session. */
  function ProcessSession(inv: Inventory, store: Store): (r: Result<SessionResult>)
    // An unresolved session is fail-closed: nothing is written and every row carries the reason.
    ensures Classify(inv).Unresolved? ==>
      && r.Ok? && r.value.store == store && r.value.writes == []
      && forall i :: 0 <= i < |r.value.rows| ==>
           !r.value.rows[i].fmap && r.value.rows[i].error == ReasonText(Classify(inv).reason)
    // A linked session raises exactly when a sidecar it must rewrite cannot be read.
    ensures Classify(inv).Paired? ==> (r.Ok? <==> forall p :: p in WrittenPaths(Classify(inv).pairings) ==> p in store)
    // Only field-map sidecars of the session are rewritten; every other file keeps its content.
    ensures r.Ok? ==> r.value.store.Keys == store.Keys
    ensures r.Ok? ==> forall p :: p in r.value.writes ==> exists k :: FmapSidecar(p, Some(k)) in inv.fmapJson
    ensures r.Ok? ==> forall p :: p in store && p !in r.value.writes ==> r.value.store[p] == store[p]
  {
    match Classify(inv)
    case Unresolved(reason) => Ok(SessionResult(store, [], UnresolvedRows(inv, reason)))
    case Paired(ps) =>
      PairedSessionEffects(inv, store);
      ApplyPairings(store, inv.subject, ps)
  }

  /** The session exactly as the script is written: in the `Extra fmap pairs`
      branch an image without a run number raises at line 90. */
  predicate HaltsOnRunlessImage(inv: Inventory)
  {
    && Classify(inv) == Unresolved(ExtraFmapPairs)
    && exists i :: 0 <= i < |inv.allBold| && inv.allBold[i].run.None?
  }

  /** The loop body of the script for one session as written, with the
      unguarded run lookup of the `Extra fmap pairs` report. */
  function ProcessSessionAsWritten(inv: Inventory, store: Store): (r: Result<SessionResult>)
    // It raises on a run-less image in the `Extra fmap pairs` branch, naming such an image ...
    ensures HaltsOnRunlessImage(inv) ==>
      r.Err? && exists i :: (0 <= i < |inv.allBold| && inv.allBold[i].run.None?
                             && r.failure == MissingRunEntity(inv.allBold[i].relpath))
    // ... and in every other session does what the corrected model does.
    ensures !HaltsOnRunlessImage(inv) ==> r == ProcessSession(inv, store)
  {
    if Classify(inv) != Unresolved(ExtraFmapPairs) then ProcessSession(inv, store)
    else
      match ExtraFmapRowsAsWritten(inv.allBold)
      case Err(f) => Err(f)
      case Ok(rows) =>
        ExtraFmapRowsAgree(inv.allBold);
        Ok(SessionResult(store, [], rows))
  }

  /** As written, a session whose field-map sidecars can all be read raises
      exactly when it reaches the `Extra fmap pairs` report with a run-less image. */
  lemma ReadableSessionAsWritten(inv: Inventory, store: Store)
    requires SidecarsReadable(inv, store)
    ensures ProcessSessionAsWritten(inv, store).Err? <==> HaltsOnRunlessImage(inv)
  {
    if !HaltsOnRunlessImage(inv) {
      ReadableSessionSucceeds(inv, store);
    }
  }

  /** Every row of a linked session is about an image of one of its pairings. */
  lemma {:induction false} ReportedRowFiles(ps: seq<Pairing>)
    ensures forall row :: row in ReportedRows(ps) ==>
      row.FileRow? && row.error == AttemptNote && exists j :: 0 <= j < |ps| && row.file in ps[j].bold
    decreases |ps|
  {
    if |ps| > 0 {
      ReportedRowFiles(ps[1..]);
      forall row | row in ReportedRows(ps)
        ensures row.FileRow? && row.error == AttemptNote && exists j :: 0 <= j < |ps| && row.file in ps[j].bold
      {
        if row in PairingRows(ps[0], Linkable(ps[0])) {
          var i :| 0 <= i < |ps[0].bold| && PairingRows(ps[0], Linkable(ps[0]))[i] == row;
          assert row.file == ps[0].bold[i];
        } else {
          assert row in ReportedRows(ps[1..]);
          var j :| 0 <= j < |ps[1..]| && row.file in ps[1..][j].bold;
          assert ps[j + 1] == ps[1..][j];
        }
      }
    }
  }

  /** Every row of every pairing is reported. */
  lemma {:induction false} PairingRowReported(ps: seq<Pairing>, j: nat, i: nat)
    requires j < |ps| && i < |ps[j].bold|
    ensures PairingRows(ps[j], Linkable(ps[j]))[i] in ReportedRows(ps)
    decreases |ps|
  {
    if j > 0 {
      assert ps[j] == ps[1..][j - 1];
      PairingRowReported(ps[1..], j - 1, i);
    }
  }

  /** A session without field maps writes nothing and reports one `No fmap data`
      line, whatever functional data it has. */
  lemma NoFmapDataReport(inv: Inventory, store: Store)
    requires |inv.fmapRuns| == 0
    ensures ProcessSession(inv, store)
      == Ok(SessionResult(store, [], [SessionRow(inv.subject, inv.session, false, "No fmap data")]))
  {
  }

  /** The check for missing functional data looks at rest run numbers, not
      rest images: with field maps, no rest run numbers and no task images,
      the session is reported `No fmri data` and nothing is linked, even when
      it has resting-state images without run numbers. */
  lemma UnnumberedRestAloneReport(inv: Inventory, store: Store)
    requires |inv.fmapRuns| > 0 && |inv.restRuns| == 0 && |inv.taskBold| == 0
    ensures ProcessSession(inv, store)
      == Ok(SessionResult(store, [], [SessionRow(inv.subject, inv.session, false, "No fmri data")]))
  {
  }

  /** More than three field-map runs (with some functional data): nothing is
      written and every functional image is reported unlinked with
      `Extra fmap pairs`. */
  lemma ExtraFmapPairsReport(inv: Inventory, store: Store)
    requires |inv.fmapRuns| > 3 && (|inv.restRuns| > 0 || |inv.taskBold| > 0)
    ensures var r := ProcessSession(inv, store);
      && r.Ok? && r.value.store == store && r.value.writes == []
      && |r.value.rows| == |inv.allBold|
      && forall i :: 0 <= i < |inv.allBold| ==>
           r.value.rows[i] == FileRow(inv.allBold[i], inv.allBold[i].run, false, "Extra fmap pairs")
  {
    CascadePrecedence(inv);
  }

  /** Too many resting-state runs, or fewer field-map runs than resting-state
      runs (after the earlier checks): nothing is written and every
      resting-state image is reported unlinked. */
  lemma ExtraFuncReport(inv: Inventory, store: Store)
    requires 1 <= |inv.fmapRuns| <= 3 && (|inv.restRuns| > 0 || |inv.taskBold| > 0)
    requires |inv.restRuns| > 2 || |inv.fmapRuns| < |inv.restRuns|
    ensures var r := ProcessSession(inv, store);
      && r.Ok? && r.value.store == store && r.value.writes == []
      && |r.value.rows| == |inv.restBold|
      && forall i :: 0 <= i < |inv.restBold| ==>
           r.value.rows[i] == FileRow(inv.restBold[i], inv.restBold[i].run, false, "Extra func or too few fmaps")
  {
    CascadePrecedence(inv);
  }

  /** A linked session does what its pairings do. */
  lemma ProcessPaired(inv: Inventory, store: Store)
    requires Classify(inv).Paired?
    ensures ProcessSession(inv, store) == ApplyPairings(store, inv.subject, Classify(inv).pairings)
  {
  }

  /** The usual case: a sidecar of field-map run j + 1, when that pairing is
      linkable, ends up linked to exactly that pairing's images. */
  lemma UsualCaseSidecarLinked(inv: Inventory, store: Store, j: nat, p: Path)
    requires Classify(inv).Paired? && |inv.restRuns| > 0
    requires DistinctSidecarPaths(inv.fmapJson)
    requires j < 3 && Linkable(Classify(inv).pairings[j]) && p in SidecarsOfRun(inv.fmapJson, j + 1)
    requires ApplyPairings(store, inv.subject, Classify(inv).pairings).Ok?
    ensures p in store
    ensures ApplyPairings(store, inv.subject, Classify(inv).pairings).value.store[p]
      == SetLinkage(store[p], IntendedPaths(inv.subject, Classify(inv).pairings[j].bold))
  {
    var ps := Classify(inv).pairings;
    forall i | 0 <= i < |ps| && i != j
      ensures p !in ps[i].sidecars
    {
      if p in ps[i].sidecars {
        SidecarRunUnique(inv.fmapJson, p, j + 1, i + 1);
      }
    }
    PairingLinkage(store, inv.subject, ps, j, p);
  }

  /** Every field-map sidecar the index lists can be opened and parsed. */
  predicate SidecarsReadable(inv: Inventory, store: Store)
  {
    forall f :: f in inv.fmapJson ==> f.path in store
  }

  /** A session whose field-map sidecars can all be read never raises, whatever
      the cascade decides. */
  lemma ReadableSessionSucceeds(inv: Inventory, store: Store)
    requires SidecarsReadable(inv, store)
    ensures ProcessSession(inv, store).Ok?
  {
    if Classify(inv).Paired? {
      var ps := Classify(inv).pairings;
      forall p | p in WrittenPaths(ps)
        ensures p in store
      {
        WrittenIsSessionSidecar(inv, p);
      }
    }
  }

  /** The usual case, resting-state run k (k = 1 or 2): when field-map run k is a
      pair of readable sidecars and the run has images, both sidecars end up
      linked to exactly those images' subject-relative paths, whatever they
      held before. */
  lemma RestRunLinked(inv: Inventory, store: Store, k: nat)
    requires k == 1 || k == 2
    requires Classify(inv).Paired? && |inv.restRuns| > 0
    requires DistinctSidecarPaths(inv.fmapJson) && SidecarsReadable(inv, store)
    requires |SidecarsOfRun(inv.fmapJson, k)| == 2 && |RestBoldOfRun(inv, k)| > 0
    ensures ProcessSession(inv, store).Ok?
    ensures forall p :: p in SidecarsOfRun(inv.fmapJson, k) ==>
      && p in store
      && ProcessSession(inv, store).value.store[p]
           == SetLinkage(store[p], IntendedPaths(inv.subject, RestBoldOfRun(inv, k)))
  {
    ReadableSessionSucceeds(inv, store);
    ProcessPaired(inv, store);
    assert Classify(inv).pairings[k - 1].bold == RestBoldOfRun(inv, k);
    forall p | p in SidecarsOfRun(inv.fmapJson, k)
      ensures p in store
      ensures ProcessSession(inv, store).value.store[p]
           == SetLinkage(store[p], IntendedPaths(inv.subject, RestBoldOfRun(inv, k)))
    {
      UsualCaseSidecarLinked(inv, store, k - 1, p);
    }
  }

  /** The usual case, task data: when field-map run 3 is a pair of readable
      sidecars and there are task images, both sidecars end up linked to all of
      them. */
  lemma TaskLinked(inv: Inventory, store: Store)
    requires Classify(inv).Paired? && |inv.restRuns| > 0
    requires DistinctSidecarPaths(inv.fmapJson) && SidecarsReadable(inv, store)
    requires |SidecarsOfRun(inv.fmapJson, 3)| == 2 && |inv.taskBold| > 0
    ensures ProcessSession(inv, store).Ok?
    ensures forall p :: p in SidecarsOfRun(inv.fmapJson, 3) ==>
      && p in store
      && ProcessSession(inv, store).value.store[p]
           == SetLinkage(store[p], IntendedPaths(inv.subject, inv.taskBold))
  {
    ReadableSessionSucceeds(inv, store);
    ProcessPaired(inv, store);
    forall p | p in SidecarsOfRun(inv.fmapJson, 3)
      ensures p in store
      ensures ProcessSession(inv, store).value.store[p]
           == SetLinkage(store[p], IntendedPaths(inv.subject, inv.taskBold))
    {
      UsualCaseSidecarLinked(inv, store, 2, p);
    }
  }

  /** Every image of a pairing gets a row carrying whether its pairing was linkable. */
  lemma PairingImageReported(store: Store, subject: string, ps: seq<Pairing>, j: nat, f: BoldFile)
    requires ApplyPairings(store, subject, ps).Ok?
    requires j < |ps| && f in ps[j].bold
    ensures FileRow(f, if ps[j].showsRun then f.run else None, Linkable(ps[j]), AttemptNote)
      in ApplyPairings(store, subject, ps).value.rows
  {
    ApplyPairingsRows(store, subject, ps);
    var i :| 0 <= i < |ps[j].bold| && ps[j].bold[i] == f;
    PairingRowReported(ps, j, i);
  }

  /** The usual case: every resting-state image of run k (k = 1 or 2) is
      reported with its run number, flagged linked exactly when field-map run k
      is a pair of sidecars. */
  lemma RestRunReported(inv: Inventory, store: Store, k: nat, f: BoldFile)
    requires k == 1 || k == 2
    requires Classify(inv).Paired? && |inv.restRuns| > 0
    requires ProcessSession(inv, store).Ok?
    requires f in inv.restBold && f.run == Some(k)
    ensures FileRow(f, Some(k), |SidecarsOfRun(inv.fmapJson, k)| == 2, AttemptNote)
      in ProcessSession(inv, store).value.rows
  {
    var ps := Classify(inv).pairings;
    ProcessPaired(inv, store);
    assert ps[k - 1] == Pairing(SidecarsOfRun(inv.fmapJson, k), RestBoldOfRun(inv, k), true);
    assert f in ps[k - 1].bold;
    PairingImageReported(store, inv.subject, ps, k - 1, f);
  }

  /** The usual case: a resting-state image numbered neither 1 nor 2 (and not
      also a task image) is neither linked nor reported. */
  lemma OtherRestRunsUnreported(inv: Inventory, store: Store, f: BoldFile)
    requires Classify(inv).Paired? && |inv.restRuns| > 0
    requires ProcessSession(inv, store).Ok?
    requires f in inv.restBold && f.run != Some(1) && f.run != Some(2) && f !in inv.taskBold
    ensures forall row :: row in ProcessSession(inv, store).value.rows ==> row.FileRow? && row.file != f
  {
    var ps := Classify(inv).pairings;
    ProcessPaired(inv, store);
    ApplyPairingsRows(store, inv.subject, ps);
    ReportedRowFiles(ps);
    assert forall j :: 0 <= j < |ps| ==> f !in ps[j].bold by {
      forall j | 0 <= j < |ps|
        ensures f !in ps[j].bold
      {
        if j < 2 {
          assert f in ps[j].bold ==> f.run == Some(j + 1);
        }
      }
    }
  }

  /** The special case, no resting-state run numbers: only field-map run 1 is
      ever rewritten, and only the resting-state images are reported, without
      run numbers; the task images are never attempted. */
  lemma UnnumberedRestReport(inv: Inventory, store: Store)
    requires Classify(inv).Paired? && |inv.restRuns| == 0
    requires ProcessSession(inv, store).Ok?
    ensures var r := ProcessSession(inv, store).value;
      && (forall p :: p in r.writes ==> p in SidecarsOfRun(inv.fmapJson, 1))
      && (forall row :: row in r.rows ==> row.FileRow? && row.file in inv.restBold && row.run == None)
  {
    var ps := Classify(inv).pairings;
    ProcessPaired(inv, store);
    ApplyPairingsRows(store, inv.subject, ps);
    assert ReportedRows(ps) == PairingRows(ps[0], Linkable(ps[0])) + ReportedRows([]);
  }

  /** In the same special case, with every field-map sidecar readable, the
      session does not raise and a run-1 pair of sidecars is linked to all the
      resting-state images. */
  lemma UnnumberedRestLinksRunOne(inv: Inventory, store: Store)
    requires Classify(inv).Paired? && |inv.restRuns| == 0
    requires SidecarsReadable(inv, store)
    requires |SidecarsOfRun(inv.fmapJson, 1)| == 2 && |inv.restBold| > 0
    ensures ProcessSession(inv, store).Ok?
    ensures forall p :: p in SidecarsOfRun(inv.fmapJson, 1) ==>
      && p in store
      && ProcessSession(inv, store).value.store[p] == SetLinkage(store[p], IntendedPaths(inv.subject, inv.restBold))
  {
    var ps := Classify(inv).pairings;
    ReadableSessionSucceeds(inv, store);
    ProcessPaired(inv, store);
    forall p | p in SidecarsOfRun(inv.fmapJson, 1)
      ensures p in store
      ensures ProcessSession(inv, store).value.store[p] == SetLinkage(store[p], IntendedPaths(inv.subject, inv.restBold))
    {
      PairingLinkage(store, inv.subject, ps, 0, p);
    }
  }
}

=== FILE: strings.dfy ===
/** The few string operations the scripts rely on: `str.endswith` and
    `str.replace(pattern, '')`. */
module Strings {

  /** `s.startswith(prefix)`. */
  predicate StartsWith(s: string, prefix: string)
  {
    |prefix| <= |s| && s[..|prefix|] == prefix
  }

  /** `s.endswith(suffix)`. */
  predicate EndsWith(s: string, suffix: string)
  {
    |suffix| <= |s| && s[|s| - |suffix|..] == suffix
  }

  /** `pat` occurs in `s` starting at index `i`. */
  predicate OccursAt(s: string, pat: string, i: nat)
  {
    i + |pat| <= |s| && s[i..i + |pat|] == pat
  }

  /** `pat in s`. */
  ghost predicate Contains(s: string, pat: string)
  {
    exists i: nat :: OccursAt(s, pat, i)
  }

  /** An occurrence in the tail of a string is an occurrence in the string, one index later. */
  lemma OccursInTail(s: string, pat: string, i: nat)
    requires |s| > 0 && OccursAt(s[1..], pat, i)
    ensures OccursAt(s, pat, i + 1)
  {
    assert s[1..][i..i + |pat|] == s[i + 1..i + 1 + |pat|];
  }

  /** `s.replace(pat, '')`: scanning left to right, every non-overlapping
      occurrence of `pat` is deleted. An empty `pat` leaves `s` as it is. */
  function RemoveAll(s: string, pat: string): (r: string)
    ensures |r| <= |s|
    ensures !Contains(s, pat) ==> r == s
    ensures |pat| == 0 ==> r == s
    decreases |s|
  {
    if |pat| == 0 || |s| < |pat| then s
    else if s[..|pat|] == pat then
      assert OccursAt(s, pat, 0);
      RemoveAll(s[|pat|..], pat)
    else
      assert !Contains(s, pat) ==> !Contains(s[1..], pat) by {
        if Contains(s[1..], pat) {
          var i: nat :| OccursAt(s[1..], pat, i);
          OccursInTail(s, pat, i);
        }
      }
      [s[0]] + RemoveAll(s[1..], pat)
  }

  /** A leading occurrence of a non-empty pattern is deleted and the scan resumes after it. */
  lemma RemoveLeading(pat: string, t: string)
    requires |pat| > 0
    ensures RemoveAll(pat + t, pat) == RemoveAll(t, pat)
  {
    assert (pat + t)[..|pat|] == pat;
    assert (pat + t)[|pat|..] == t;
  }

  /** `pat` does not occur in `s` at any index below `n`. */
  predicate NoOccurrenceBefore(s: string, pat: string, n: nat)
  {
    forall i: nat :: i < n ==> !OccursAt(s, pat, i)
  }

  /** Before an occurrence of `pat` that does not start the string, the
      first character is kept and the scan moves on to the rest. */
  lemma RemoveAllSkips(a: string, pat: string, b: string)
    requires |pat| > 0 && |a| > 0 && !OccursAt(a + pat + b, pat, 0)
    ensures RemoveAll(a + pat + b, pat) == [a[0]] + RemoveAll(a[1..] + pat + b, pat)
  {
    assert (a + pat + b)[1..] == a[1..] + pat + b;
  }

  /** No occurrence before `n + 1` in `s` means none before `n` in its tail. */
  lemma NoOccurrenceInTail(s: string, pat: string, n: nat)
    requires |s| > 0 && NoOccurrenceBefore(s, pat, n + 1)
    ensures NoOccurrenceBefore(s[1..], pat, n)
  {
    forall i: nat | i < n
      ensures !OccursAt(s[1..], pat, i)
    {
      if OccursAt(s[1..], pat, i) {
        OccursInTail(s, pat, i);
      }
    }
  }

  /** Putting back the first element of a non-empty sequence in front of its rest. */
  lemma ConsAppend<T>(a: seq<T>, x: seq<T>)
    requires |a| > 0
    ensures [a[0]] + (a[1..] + x) == a + x
  {
    assert a == [a[0]] + a[1..];
  }

  /** The first occurrence of a non-empty pattern is deleted wherever it sits:
      the text before it is kept as it is and the scan resumes after it. */
  lemma {:induction false} RemoveAllInterior(a: string, pat: string, b: string)
    requires |pat| > 0 && NoOccurrenceBefore(a + pat + b, pat, |a|)
    ensures RemoveAll(a + pat + b, pat) == a + RemoveAll(b, pat)
    decreases |a|
  {
    if |a| == 0 {
      assert a + pat + b == pat + b;
      RemoveLeading(pat, b);
    } else {
      var s := a + pat + b;
      assert s[1..] == a[1..] + pat + b;
      NoOccurrenceInTail(s, pat, |a| - 1);
      RemoveAllInterior(a[1..], pat, b);
      RemoveAllSkips(a, pat, b);
      ConsAppend(a, RemoveAll(b, pat));
    }
  }

  /** A string ending in `suffix` still does after anything is put in front of it. */
  lemma EndsWithAfterPrefix(prefix: string, s: string, suffix: string)
    requires EndsWith(s, suffix)
    ensures EndsWith(prefix + s, suffix)
  {
    assert (prefix + s)[|prefix + s| - |suffix|..] == s[|s| - |suffix|..];
  }
}

=== FILE: triage.dfy ===
/** The per-session triage of bids/hcp_func_intendedfor.py: an ordered list of
    reasons to leave a session alone, and, when none applies, the choice of
    which field-map run is linked to which functional runs. */
module Triage {

  import opened Common
  import opened Seqs

  /** A functional image as the dataset index reports it: its entities and
      its path relative to the dataset root. Only `run` may be missing. */
  datatype BoldFile = BoldFile(
    subject: string,
    session: string,
    task: string,
    run: Option<nat>,
    direction: string,
    suffix: string,
    relpath: string)

  /** A field-map JSON sidecar: its path and its `run` entity, if any. */
  datatype FmapSidecar = FmapSidecar(path: Path, run: Option<nat>)

  /** What the dataset index answers for one (subject, session). */
  datatype Inventory = Inventory(
    subject: string,
    session: string,
    /** The distinct run numbers of resting-state functional data. */
    restRuns: set<nat>,
    /** The distinct run numbers of field-map data. */
    fmapRuns: set<nat>,
    /** The task (gambling or WM) BOLD images. */
    taskBold: seq<BoldFile>,
    /** Every functional image. */
    allBold: seq<BoldFile>,
    /** The resting-state BOLD images, of every run. */
    restBold: seq<BoldFile>,
    /** The field-map JSON sidecars, of every run. */
    fmapJson: seq<FmapSidecar>)

  /** Why a session is left unresolved. */
  datatype Reason = NoFmapData | NoFmriData | ExtraFmapPairs | ExtraFuncOrTooFewFmaps

  /** The reason as it appears in the report's error column. */
  function ReasonText(reason: Reason): (text: string)
    // Never the `None` that rows of an attempted link carry.
    ensures text != "None"
  {
    match reason
    case NoFmapData => "No fmap data"
    case NoFmriData => "No fmri data"
    case ExtraFmapPairs => "Extra fmap pairs"
    case ExtraFuncOrTooFewFmaps => "Extra func or too few fmaps"
  }

  /** One call of `intendFmaps` to make: the candidate field-map sidecars, the
      functional images to link them to, and whether the report shows those
      images' run numbers. */
  datatype Pairing = Pairing(sidecars: seq<Path>, bold: seq<BoldFile>, showsRun: bool)

  /** A session is either left alone for a reason or linked by a list of pairings, in order. */
  datatype Outcome = Unresolved(reason: Reason) | Paired(pairings: seq<Pairing>)

  /** The sidecar paths of field-map run `k`, in index order. */
  function SidecarsOfRun(fmapJson: seq<FmapSidecar>, k: nat): (r: seq<Path>)
    ensures forall p :: p in r <==> FmapSidecar(p, Some(k)) in fmapJson
    decreases |fmapJson|
  {
    if |fmapJson| == 0 then []
    else
      (if fmapJson[0].run == Some(k) then [fmapJson[0].path] else [])
        + SidecarsOfRun(fmapJson[1..], k)
  }

  /** The sidecar paths of every field-map run. */
  function AllSidecars(fmapJson: seq<FmapSidecar>): seq<Path>
  {
    seq(|fmapJson|, i requires 0 <= i < |fmapJson| => fmapJson[i].path)
  }

  /** No sidecar path is listed twice by the index. */
  predicate DistinctSidecarPaths(fmapJson: seq<FmapSidecar>)
  {
    forall i, j :: 0 <= i < j < |fmapJson| ==> fmapJson[i].path != fmapJson[j].path
  }

  /** When paths are distinct, a sidecar belongs to one field-map run only. */
  lemma SidecarRunUnique(fmapJson: seq<FmapSidecar>, p: Path, k: nat, k': nat)
    requires DistinctSidecarPaths(fmapJson)
    requires p in SidecarsOfRun(fmapJson, k) && p in SidecarsOfRun(fmapJson, k')
    ensures k == k'
  {
    var i :| 0 <= i < |fmapJson| && fmapJson[i] == FmapSidecar(p, Some(k));
    var i' :| 0 <= i' < |fmapJson| && fmapJson[i'] == FmapSidecar(p, Some(k'));
    assert i == i';
  }

  /** The resting-state images of run `k`. */
  function RestBoldOfRun(inv: Inventory, k: nat): (r: seq<BoldFile>)
    ensures |r| <= |inv.restBold|
    ensures forall f :: f in r <==> f in inv.restBold && f.run == Some(k)
  {
    Filter(inv.restBold, (f: BoldFile) => f.run == Some(k))
  }

  /** The cascade, its outcome decided by the first check that matches. The
      special case (no resting-state run numbers) links field-map run 1 to the
      unnumbered resting-state images and stops there; otherwise resting-state
      run k goes with field-map run k for k = 1, 2 and every task image with
      field-map run 3. */
  function Classify(inv: Inventory): (o: Outcome)
    // No field maps: nothing else matters.
    ensures |inv.fmapRuns| == 0 ==> o == Unresolved(NoFmapData)
    // Linking is attempted only with one to three field-map runs, at most two
    // resting-state runs, no more resting-state runs than field-map runs, and
    // some functional data.
    ensures o.Paired? ==>
      && 1 <= |inv.fmapRuns| <= 3
      && |inv.restRuns| <= 2
      && |inv.restRuns| <= |inv.fmapRuns|
      && (|inv.restRuns| > 0 || |inv.taskBold| > 0)
    // Without resting-state run numbers only field-map run 1 is linked, and task data is never attempted.
    ensures o.Paired? && |inv.restRuns| == 0 ==>
      o.pairings == [Pairing(SidecarsOfRun(inv.fmapJson, 1), inv.restBold, false)]
    // Otherwise three pairings: resting-state run k with field-map run k only, then task with run 3.
    ensures o.Paired? && |inv.restRuns| > 0 ==>
      && |o.pairings| == 3
      && (forall j :: 0 <= j < 2 ==>
            && o.pairings[j].sidecars == SidecarsOfRun(inv.fmapJson, j + 1)
            && o.pairings[j].showsRun
            && forall f :: f in o.pairings[j].bold <==> f in inv.restBold && f.run == Some(j + 1))
      && o.pairings[2] == Pairing(SidecarsOfRun(inv.fmapJson, 3), inv.taskBold, true)
  {
    if |inv.fmapRuns| == 0 then Unresolved(NoFmapData)
    else if |inv.restRuns| == 0 && |inv.taskBold| == 0 then Unresolved(NoFmriData)
    else if |inv.fmapRuns| > 3 then Unresolved(ExtraFmapPairs)
    else if |inv.restRuns| > 2 || |inv.fmapRuns| < |inv.restRuns| then Unresolved(ExtraFuncOrTooFewFmaps)
    else if |inv.restRuns| == 0 then
      var sidecars := if |inv.fmapRuns| > 0 then SidecarsOfRun(inv.fmapJson, 1) else AllSidecars(inv.fmapJson);
      Paired([Pairing(sidecars, inv.restBold, false)])
    else
      Paired([
        Pairing(SidecarsOfRun(inv.fmapJson, 1), RestBoldOfRun(inv, 1), true),
        Pairing(SidecarsOfRun(inv.fmapJson, 2), RestBoldOfRun(inv, 2), true),
        Pairing(SidecarsOfRun(inv.fmapJson, 3), inv.taskBold, true)])
  }

  /** One check of the cascade: whether it matches, and the reason it reports. */
  datatype Rule = Rule(fires: bool, reason: Reason)

  /** The checks, each stated on its own, in the order the script makes them. */
  function Rules(inv: Inventory): seq<Rule>
  {
    [ Rule(|inv.fmapRuns| == 0, NoFmapData),
      Rule(|inv.restRuns| == 0 && |inv.taskBold| == 0, NoFmriData),
      Rule(|inv.fmapRuns| > 3, ExtraFmapPairs),
      Rule(|inv.restRuns| > 2 || |inv.fmapRuns| < |inv.restRuns|, ExtraFuncOrTooFewFmaps) ]
  }

  /** Check `i` matches and no earlier one does. */
  predicate FiresFirst(rules: seq<Rule>, i: int)
  {
    0 <= i < |rules| && rules[i].fires && forall j :: 0 <= j < i ==> !rules[j].fires
  }

  /** The reason of the first check that matches, if any does. */
  function FirstMatch(rules: seq<Rule>): (r: Option<Reason>)
    ensures r.None? <==> forall i :: 0 <= i < |rules| ==> !rules[i].fires
    ensures r.Some? ==> exists i :: FiresFirst(rules, i) && rules[i].reason == r.value
    decreases |rules|
  {
    if |rules| == 0 then None
    else if rules[0].fires then
      assert FiresFirst(rules, 0);
      Some(rules[0].reason)
    else
      var r := FirstMatch(rules[1..]);
      assert r.Some? ==> exists i :: FiresFirst(rules, i) && rules[i].reason == r.value by {
        if r.Some? {
          var i :| FiresFirst(rules[1..], i) && rules[1..][i].reason == r.value;
          assert rules[i + 1] == rules[1..][i];
          assert forall j :: 1 <= j < i + 1 ==> rules[j] == rules[1..][j - 1];
          assert FiresFirst(rules, i + 1);
        }
      }
      r
  }

  /** The cascade is exactly a first-match evaluation of the rule list: a
      session is unresolved when some check matches, for the reason of the
      first one. */
  lemma ClassifyIsFirstMatch(inv: Inventory)
    ensures Classify(inv).Unresolved? <==> FirstMatch(Rules(inv)).Some?
    ensures Classify(inv).Unresolved? ==> Classify(inv).reason == FirstMatch(Rules(inv)).value
  {
    var rules := Rules(inv);
    var m := FirstMatch(rules);
    if m.Some? {
      var i :| FiresFirst(rules, i) && rules[i].reason == m.value;
      assert i == 0 || !rules[0].fires;
      assert i <= 1 || !rules[1].fires;
      assert i <= 2 || !rules[2].fires;
    } else {
      assert !rules[0].fires && !rules[1].fires && !rules[2].fires && !rules[3].fires;
    }
  }

  /** What each reason means on its own: the exact circumstances in which the
      cascade reports it, earlier checks taking precedence over later ones. */
  lemma CascadePrecedence(inv: Inventory)
    ensures Classify(inv) == Unresolved(NoFmapData) <==> |inv.fmapRuns| == 0
    ensures Classify(inv) == Unresolved(NoFmriData) <==>
      |inv.fmapRuns| > 0 && |inv.restRuns| == 0 && |inv.taskBold| == 0
    ensures Classify(inv) == Unresolved(ExtraFmapPairs) <==>
      |inv.fmapRuns| > 3 && (|inv.restRuns| > 0 || |inv.taskBold| > 0)
    ensures Classify(inv) == Unresolved(ExtraFuncOrTooFewFmaps) <==>
      && 1 <= |inv.fmapRuns| <= 3
      && (|inv.restRuns| > 0 || |inv.taskBold| > 0)
      && (|inv.restRuns| > 2 || |inv.fmapRuns| < |inv.restRuns|)
  {
    ClassifyIsFirstMatch(inv);
  }
}
